=== FILE: README.md ===
# mpicpy in Dafny

mpicpy copies one file to every rank of an MPI job. First the ranks elect a
root, the rank whose copy is the source. The election goes by whoever has the
file, by the largest size, by an MD5 prefix, by host name or by an explicit
rank. Next the root broadcasts the file in chunks of a configurable size, and
every other rank writes the chunks, in order, to a fresh destination. Last,
rank 0 gathers every rank's MD5 digest and accepts the copy only when they
all agree. The repository also keeps an earlier top-level script,
`mpicpy.py`, with the same shape and a simpler option syntax.

This project models those rules. Each collective call becomes the vector it
gathers, indexed by rank. A file is a `seq<byte>`. A call to `die`, or an
exception that ends the run, becomes an `Err` carrying a `Failure`. In the
current script every modelled exception but one is raised alike on all
ranks, so every rank ends; its top-level handler at
mpicpy/mpicpy.py:402-412 itself fails on the undefined name `comm` before
reaching `Abort`. The exception is an elected root that has no file:
`os.path.getsize` in `send_file` raises on the root alone, and every other
rank is left waiting in the size broadcast of `recv_file`. In the earlier
script an exception raised on the elected root alone, by its own file check,
ends that rank only. When `rank_suffix` is set the other ranks are then left
waiting in the size broadcast; without it they fail first on the undefined
`local_filename` (mpicpy.py:128).

The modules, one per file:

- `Common` (common.dfy): `Option`, the `Failure` kinds and `Result`.
- `Text` (text.dfy): the pieces of Python's `re` and `int` that the options
  rely on. These are runs of ASCII digits and their value, ASCII
  lower-casing, and the `$` anchor, which also matches just before a final
  newline.
- `ChunkSize` (chunk_size.dfy): `parse_chunk_size`. Besides the function
  there is an independent statement of the grammar and of the binary
  multipliers.
- `ChunkPlan` (chunk_plan.dfy): `get_num_chunks` and the last-chunk rule of
  `send_file` and `recv_file`.
- `Transfer` (transfer.dfy): the send and receive loops, as methods proved
  against `Split` and `Concat`.
- `Election` (election.dfy): `max_with_index` and every strategy of
  `determine_root_rank`.
- `Checksum` (checksum.dfy): rank 0's verdict on the gathered digests.
- `Copy` (copy.dfy): the copy phase of `main` for a whole group, once the
  root is known.
- `Legacy` (legacy.dfy): `decide_root`, `parse_chunksize` and the receive
  loop of the earlier script.

The legacy model reproduces that script's defects as written and puts a
corrected definition beside each (see Findings). The current script keeps two
quirks exactly as written:

- A size election reads an absent size as 0 (`s or 0`).
- The checksum set is not filtered, so a rank without a file contributes
  `None`.

The checksum comparison is taken over the raw gathered list, `None`
entries included, exactly as the code does; a comparison over the present
digests only is not what the code computes.

## Model

| member | source | states |
|---|---|---|
| Text.AnchoredBody | mpicpy/mpicpy.py:190 | the text a `^...$` pattern must cover is the whole string, or the string less one final newline, and it is the whole string exactly when there is no final newline |
| Text.LowerAll | mpicpy/mpicpy.py:197 | `.lower()` keeps the length and lower-cases each character in place |
| ChunkSize.MatchChunkSize | mpicpy/mpicpy.py:190 | a match yields a non-empty digit group and a unit group that is empty or one of `k`, `m`, `g` in either case |
| ChunkSize.ParseChunkSize | mpicpy/mpicpy.py:185-210 | an integer is returned unchanged when it is at least 0 and refused otherwise; the only way a string can fail is as unparsable |
| ChunkSize.ParseAcceptsExactlyTheGrammar | mpicpy/mpicpy.py:190-193 | a string is accepted exactly when it is digits followed by an optional `k`/`m`/`g`, `i` and `b`, any case, with `$` also allowing one final newline |
| ChunkSize.ParseValue | mpicpy/mpicpy.py:195-210 | digits followed by a unit parse to the digits' value times 1, 2^10, 2^20 or 2^30, with or without a final newline |
| ChunkSize.ScaleByUnit | mpicpy/mpicpy.py:197-208 | the `if`/`elif` dispatch on the lower-cased unit letter applies that unit's binary multiplier and never reaches `assert False` |
| ChunkSize.ParseGibibyteSpellings | test/test_main.py:13-14 | `1g`, `1gb`, `1gib`, `1GiB` and `1GB` are 2^30 bytes |
| ChunkSize.ParseMebibyteSpellings | test/test_main.py:16-17 | `1m`, `1mb`, `1mib`, `1MiB` and `1MB` are 2^20 bytes |
| ChunkSize.ParseKibibyteSpellings | test/test_main.py:19-20 | `1k`, `1kb`, `1kib`, `1KiB` and `1KB` are 2^10 bytes |
| ChunkSize.ParsePlainDigitsExample | test/test_main.py:22-23 | `10` is 10 bytes |
| ChunkSize.ParseRejectExamples | mpicpy/mpicpy.py:190-193 | `""`, `abc` and `1b` are refused as unparsable |
| ChunkPlan.NumChunks | mpicpy/mpicpy.py:213-217 | no chunks exactly for an empty file; a non-empty file with a zero chunk size fails the division and nothing else fails |
| ChunkPlan.NumChunksIsCeiling | mpicpy/mpicpy.py:213-217 | for a positive chunk size the count `n` of a non-empty file satisfies `(n-1)*c < size <= n*c`, and no other count does |
| ChunkPlan.ChunkLengths | mpicpy/mpicpy.py:272-278 | the plan has one length per counted chunk |
| ChunkPlan.ChunkLengthBounds | mpicpy/mpicpy.py:293-299 | every chunk carries between 1 and `chunk_size` bytes, and every chunk but the last carries exactly `chunk_size` |
| ChunkPlan.ChunkLengthsSum | mpicpy/mpicpy.py:293-299 | the chunk lengths add up to the file size |
| ChunkPlan.PlanOfOneChunk | mpicpy/mpicpy.py:213-217 | a non-empty file no larger than a chunk is one chunk holding the whole file |
| ChunkPlan.PlanAfterFirstChunk | mpicpy/mpicpy.py:213-217 | removing a whole first chunk from a file of several chunks leaves one chunk fewer with the same remainder |
| ChunkPlan.PlanExamples | test/test_main.py:31-34 | (0, 10) gives 0 chunks, (300, 120) gives 3 chunks of 120, 120 and 60 bytes, and (1000, 1) gives 1000 chunks of one byte |
| Transfer.Read | mpicpy/mpicpy.py:269 | `f.read(n)` at the cursor returns the next bytes of the file, at most `n`, and fewer only at the end of the file |
| Transfer.SplitConcat | mpicpy/mpicpy.py:266-270 | putting the chunks of a file back together gives the file |
| Transfer.SplitMatchesPlan | mpicpy/mpicpy.py:267-278 | a file splits into as many chunks as the plan counts, each as long as the plan says |
| Transfer.SendFile | mpicpy/mpicpy.py:243-279 | the root broadcasts exactly the chunks of its file, in order, with the planned lengths, and advances the progress bar by the file size in total; given the root's bytes, it fails only on a zero chunk size for a non-empty file |
| Transfer.RecvFile | mpicpy/mpicpy.py:282-303 | a receiver succeeds exactly when the broadcast buffers have the planned lengths; it then writes their concatenation, which is exactly `size` bytes long |
| Transfer.CopyToReceiver | mpicpy/mpicpy.py:243-303 | a receiver's destination is a byte-for-byte copy of the root's file; given the root's bytes, the transfer fails only on a zero chunk size for a non-empty file |
| Election.IndexOfTrue | mpicpy/mpicpy.py:104 | `index(True)` is the lowest position holding `True` |
| Election.ElectUnique | mpicpy/mpicpy.py:92-106 | a reduction that needs exactly one `True`: it succeeds exactly when `True` occurs once, returns that position, and fails with the "none" or "several" kind otherwise |
| Election.MaxWithIndex | mpicpy/mpicpy.py:62-63 | `max_with_index` returns the position and value of a maximum, and no earlier entry reaches that value |
| Election.ElectByRank | mpicpy/mpicpy.py:108-116 | an explicit rank is elected exactly when it lies in the group and, on that rank itself, the file exists |
| Election.ElectBySize | mpicpy/mpicpy.py:118-134 | the size election fails exactly when no rank has the file; otherwise it elects the first rank of largest size, reading an absent size as 0 |
| Election.ElectBySizeIntended | mpicpy/mpicpy.py:118-134 | the size election as the docstring at mpicpy/mpicpy.py:71 states it elects the first rank of largest size among the ranks that have the file |
| Election.ElectByMd5 | mpicpy/mpicpy.py:136-158 | the MD5 election succeeds exactly when the prefix is non-empty and some digest starts with it; it elects the first such rank |
| Election.DetermineRootRank | mpicpy/mpicpy.py:66-182 | more than one selector is fatal, and an elected root always lies in the group |
| Election.SingleSelectorDispatch | mpicpy/mpicpy.py:108-179 | with exactly one selector, `--rank`, `--size`, `--md5` and `--hostname` each run their own strategy on the vector they gather, and `--mtime` always fails |
| Election.ElectionAgreement | mpicpy/mpicpy.py:66-182 | all ranks that succeed elect the same root, and apart from `--rank` the outcome does not depend on the rank computing it |
| Election.AutoElection | mpicpy/mpicpy.py:92-106 | with no selector, the root is the one rank that has the file; no rank having it and several ranks having it are both fatal |
| Election.HostnameElection | mpicpy/mpicpy.py:160-176 | with `--hostname`, the root is the one rank on that host; no such rank and several such ranks are both fatal |
| Election.ElectByHostnameIntended | mpicpy/mpicpy.py:160-176 | as intended, `--hostname` elects only the one rank on the host, and, as `--rank` does, that rank dies on itself when it has no file; its failures are only no such host, several such hosts, or the root lacking its file |
| Election.HostnameElectionIntended | mpicpy/mpicpy.py:160-176 | with one rank `i` on the host, the election as written gives `i` on every rank, and the intended one gives `i` everywhere except on `i` itself when it has no file |
| Election.HostnameElectsRankWithoutFile | mpicpy/mpicpy.py:160-176 | the only rank on the host is elected by every rank although it has no file, where the intended rule makes it die |
| Election.AutoFlagNeverConsulted | mpicpy/mpicpy.py:81-82 | `--auto` is left out of the selector count and never changes the outcome, so `--auto --size` is a size election |
| Election.SizeElectionsDifferOnlyOnEmptyFiles | mpicpy/mpicpy.py:129 | reading an absent size as 0 changes the outcome only when every file present is empty |
| Election.SizeElectsRankWithoutFile | mpicpy/mpicpy.py:126-131 | with no file on rank 0 and an empty file on rank 1, rank 0 is elected as written and rank 1 as the docstring states |
| Election.SizeTieBreakExample | mpicpy/mpicpy.py:62-63 | sizes 100, 100 and 50 elect rank 0 |
| Checksum.Verdict | mpicpy/mpicpy.py:391-398 | the copy passes exactly when the gathered list is non-empty and every entry equals the first |
| Checksum.SingleDistinctValue | mpicpy/mpicpy.py:391 | a list has one distinct value exactly when it is non-empty and all its entries are equal |
| Checksum.MissingCopyQuirk | mpicpy/mpicpy.py:380-391 | one rank without a file beside any digest is a mismatch, while a group where no rank has a file passes |
| Checksum.VerdictOfCopies | mpicpy/mpicpy.py:379-398 | with the source on any root rank, copies equal to it pass for any digest function, and a copy on any rank, rank 0 included, whose digest differs from the source's fails |
| Copy.CopyAndVerify | mpicpy/mpicpy.py:371-398 | a root without its file fails before anything is sent (the `getsize` at line 244 of `send_file`); otherwise every rank holds the root's file after the copy and the verdict passes, and the only failure is a zero chunk size for a non-empty file |
| Legacy.TrueIndices | mpicpy.py:20 | the comprehension lists, in increasing order, exactly the ranks whose entry is `True` |
| Legacy.CheckOwnFile | mpicpy.py:29-38 | the elected root fails when its path is missing or is not a regular file; other ranks pass |
| Legacy.DecideRoot | mpicpy.py:11-40 | a numeral always fails (`int` is given the match object); `auto` fails exactly when no rank has the file, and otherwise elects the lowest rank that has it; any other option is invalid |
| Legacy.DecideRootIntended | mpicpy.py:12-38 | as intended, a numeral `k` elects rank `k`; every rank succeeds with `k` except rank `k` itself when its path is missing or not a regular file, and those two file failures are the only ones; a root that is not a numeral is decided exactly as written |
| Legacy.AutoElectsFirstOwner | mpicpy.py:17-25 | `auto` elects the lowest rank whose path exists, except on that rank when its path is not a regular file |
| Legacy.NumericRootRaises | mpicpy.py:14 | the root option `1` fails as written and elects rank 1 as intended |
| Legacy.MatchChunksize | mpicpy.py:48 | a match covers digits and at most one unit letter, allowing one final newline |
| Legacy.ParseChunksize | mpicpy.py:43-66 | an integer is returned unchanged when it is at least 0; a string outside `^\d+[kmg]?$` is unparsable, and a string with no unit letter reaches `assert False` |
| Legacy.ParseChunksizeMeaning | mpicpy.py:53-62 | as written, `k` scales by 2^10, `m` by 2^20, and `g` leaves the digits unscaled |
| Legacy.PlainDigitsRefused | mpicpy.py:63-64 | digits without a unit letter fail as written |
| Legacy.ParseChunksizeIntended | mpicpy.py:43-66 | the corrected parser accepts exactly the strings the legacy pattern matches |
| Legacy.IntendedAgreesWithCurrent | mpicpy.py:57-66 | on every string of the legacy grammar the corrected parser gives what `parse_chunk_size` of the current script gives |
| Legacy.GibibyteNotScaled | mpicpy.py:61-62 | `2g` is 2 bytes as written and 2^31 bytes as intended |
| Legacy.PlainDigitsRejected | mpicpy.py:63-64 | `512` fails as written and is 512 bytes as intended |
| Legacy.LegacyLengthsAgainstPlan | mpicpy.py:104-108 | the legacy receive buffer equals the planned chunk length except for the last chunk of a file that is a whole number of chunks |
| Legacy.LegacyRecvFile | mpicpy.py:91-112 | the legacy receiver succeeds exactly when the broadcast buffers have the legacy lengths, and writes their concatenation |
| Legacy.LegacyTransfer | mpicpy.py:69-112 | the earlier script's transfer succeeds exactly when the file is empty, or the chunk size is positive and does not divide the size; a successful copy equals the file |
| Legacy.LastBufferEmpty | mpicpy.py:108 | a 240-byte file in 120-byte chunks gets an empty last receive buffer where 120 bytes are broadcast |

## Left out

- The MPI primitives are not modelled: `allgather`, `bcast`, `Bcast`, `gather`, `barrier`, `Split` and `Abort`. Each collective becomes the vector it gathers, indexed by rank, or the buffer the root passes to the receivers. A broadcast with different lengths at the two ends becomes `CollectiveMismatch`, because MPI gives no defined result for it.
- `calc_md5` and the MD5 algorithm are not modelled, because they are a library call. Digests are given values, or an abstract function passed as a parameter.
- Filesystem calls (`exists`, `getsize`, `isfile`, `open`, `read`, `write`) are abstracted. Each rank's view of its path is given as a fact: a byte sequence, an optional size, an optional digest, or a `FileKind`.
- `get_local_rank` and the splitting of the communicator by node are not modelled. They depend on environment variables and on host-name lookups.
- Printed output is not modelled: `mpi_print`, `show_file_info`, `log_label`, the messages written before `die`, and the floating-point scaling of the progress bar. Only the byte count of the progress bar is kept.
- `time.sleep` is not modelled.
- Command-line parsing (argparse, fire) is not modelled. Options arrive as values, with `None` given as `Option`.
- The overwrite check in `main` is not modelled, nor are its exit codes, nor the early exit of a one-rank group, nor the top-level exception handler. Every failure ends as a plain `Err`.
- The `--mtime` branch is modelled only as its failure, because it raises "Not implemented".
- The md5 branch's second "no match" test (mpicpy/mpicpy.py:151-155) is not modelled separately. It can never fire after the first test.
- The hostname branch's failure paths (mpicpy/mpicpy.py:165, 170) test `comm.root`, an attribute an mpi4py communicator does not have, so every rank raises `AttributeError` before reaching `die`. `NoSuchHost` and `AmbiguousHost` stand for that failure, which ends the run on every rank just the same.
- ChunkSize.ParseValue, Text.DecimalValue and Legacy.DecideRootIntended: Python's `\d` also matches non-ASCII decimal digits, and `re.I` folds a few non-ASCII letters. Both are left out: the model's digits and unit letters are ASCII. The model also takes the value of a digit string of any length, while CPython's `int()` raises `ValueError` on more than 4300 digits (the default `sys.int_max_str_digits`, from Python 3.11 and from 3.7.14, 3.8.14, 3.9.14 and 3.10.7). So `int(m.group(1))` at mpicpy/mpicpy.py:195 and mpicpy.py:53, and the intended `int(root)`, fail on such input where `ParseValue` and `DecideRootIntended` succeed.
- Transfer.SendFile and Transfer.CopyToReceiver take the root's bytes, so they assume the root holds its file. The case where it does not is modelled only in `Copy.CopyAndVerify`, as `RootLacksFile`. In the source, `os.path.getsize` (mpicpy/mpicpy.py:244) raises `FileNotFoundError` on the root alone, and every other rank keeps waiting in the size broadcast (mpicpy/mpicpy.py:284); the model does not represent that wait, only the failure. Two elections can choose such a root: `--hostname`, which never checks the file (`Election.HostnameElectsRankWithoutFile`), and the size election on sizes like `[None, 0]` (`Election.SizeElectsRankWithoutFile`).
- The earlier script's `main` is not modelled. It names `local_filename` only when `rank_suffix` is set, so a receiving rank without that flag fails before any transfer. Its sender's loop is `Transfer.SendFile` without the progress count.
- In the earlier script, fire may pass a numeric `root` as an integer, and then `re.match` raises. The model takes `root` as a string, where a numeral fails in `int` instead. The outcome is the same failure.

## Findings

| source | as written | input that shows it | evidently intended | confidence | as-written member | corrected member |
|---|---|---|---|---|---|---|
| mpicpy.py:62 | `digits == 1024 * 1024 * 1024` compares and discards the result, so `g` does not scale | `"2g"` parses to 2 | `digits *= 1024 * 1024 * 1024`, giving 2147483648 | high (not executed) | Legacy.GibibyteNotScaled | Legacy.IntendedAgreesWithCurrent |
| mpicpy.py:63-64 | an empty suffix falls to `assert False` | `"512"` fails | plain digits are a byte count | high (not executed) | Legacy.PlainDigitsRejected | Legacy.ParseChunksizeIntended |
| mpicpy.py:14 | `int(m)` is given the match object and raises | root option `"1"` fails on every rank | `int(root)`, electing rank 1 | high (not executed) | Legacy.NumericRootRaises | Legacy.DecideRootIntended |
| mpicpy.py:108 | the last receive buffer is `size % chunksize` bytes, which is 0 when the chunk size divides the size | a 240-byte file in 120-byte chunks gets a 0-byte last buffer, while 120 bytes are broadcast | a whole chunk when the remainder is 0, as in mpicpy/mpicpy.py:296-299 | high (not executed) | Legacy.LastBufferEmpty | ChunkPlan.ChunkLengthsSum |
| mpicpy/mpicpy.py:129 | `s or 0` reads a rank without the file as size 0 | sizes `[None, 0]` elect rank 0, which has no file | only ranks that have the file compete, as the docstring at mpicpy/mpicpy.py:71 says | medium (not executed) | Election.SizeElectsRankWithoutFile | Election.ElectBySizeIntended |
| mpicpy/mpicpy.py:160-176 | `--hostname` elects the one rank on the host without checking that it has the file, unlike `--rank` at mpicpy/mpicpy.py:112-115 | rank 1 alone on host `b` and without the file is elected; `getsize` then raises on rank 1 alone while rank 0 waits in the size broadcast | the elected rank dies when it has no file, as with `--rank` | medium (not executed) | Election.HostnameElectsRankWithoutFile | Election.ElectByHostnameIntended |

=== FILE: checksum.dfy ===
/**
 The checksum verdict at the end of a copy (`main`, mpicpy/mpicpy.py): every
 rank computes the MD5 digest of its copy of the file, or `None` when it has
 no file, rank 0 gathers them, and the copy is good exactly when the gathered
 list holds one distinct value.
 */
module Checksum {
  import opened Common

  /** `len(set(checksum_list)) != 1` dies; otherwise the copy is good. */
  function Verdict(checksums: seq<Option<string>>): (r: Result<()>)
    ensures r.Ok? <==> |checksums| > 0 && forall i | 0 <= i < |checksums| :: checksums[i] == checksums[0]
    ensures r.Err? ==> r.failure == ChecksumMismatch
  {
    var distinct := set c | c in checksums;
    SingleDistinctValue(checksums);
    if |distinct| != 1 then Err(ChecksumMismatch) else Ok(())
  }

  /** A list has one distinct value exactly when it is not empty and every
      entry equals the first. */
  lemma SingleDistinctValue(cs: seq<Option<string>>)
    ensures |set c | c in cs| == 1 <==> |cs| > 0 && forall i | 0 <= i < |cs| :: cs[i] == cs[0]
  {
    var distinct := set c | c in cs;
    if |cs| > 0 && forall i | 0 <= i < |cs| :: cs[i] == cs[0] {
      assert distinct == {cs[0]};
    }
    if |distinct| == 1 {
      var c :| c in distinct;
      assert |distinct - {c}| == 0;
      assert distinct == {c};
      forall i | 0 <= i < |cs| ensures cs[i] == cs[0] {
        assert cs[i] in distinct && cs[0] in distinct;
      }
    }
  }

  /** A rank without the file contributes `None`, which is not filtered out:
      one missing copy beside any present digest is a mismatch, while a
      group in which no rank has a file passes. */
  lemma MissingCopyQuirk(cs: seq<Option<string>>, i: nat, j: nat)
    requires i < |cs| && j < |cs| && cs[i].None? && cs[j].Some?
    ensures Verdict(cs) == Err(ChecksumMismatch)
    ensures Verdict(seq(|cs|, k requires 0 <= k < |cs| => None)) == Ok(())
  {
    assert cs[i] != cs[0] || cs[j] != cs[0];
  }

  /** With the source held by rank `root`, copies whose contents all equal
      the source pass the verdict, whatever the digest function; a copy on
      any rank, rank 0 included, whose digest differs from the source's
      fails it. */
  lemma VerdictOfCopies(source: seq<byte>, copies: seq<seq<byte>>, root: nat, digest: seq<byte> -> string)
    requires root < |copies| && copies[root] == source
    ensures (forall i | 0 <= i < |copies| :: copies[i] == source) ==>
      Verdict(seq(|copies|, i requires 0 <= i < |copies| => Some(digest(copies[i])))) == Ok(())
    ensures (exists i | 0 <= i < |copies| :: digest(copies[i]) != digest(source)) ==>
      Verdict(seq(|copies|, i requires 0 <= i < |copies| => Some(digest(copies[i])))) == Err(ChecksumMismatch)
  {
    var cs := seq(|copies|, i requires 0 <= i < |copies| => Some(digest(copies[i])));
    if exists i | 0 <= i < |copies| :: digest(copies[i]) != digest(source) {
      var i :| 0 <= i < |copies| && digest(copies[i]) != digest(source);
      assert cs[i] != cs[0] || cs[root] != cs[0];
    }
  }
}

=== FILE: chunk_plan.dfy ===
/**
 Chunk planning (`get_num_chunks` and the last-chunk rule of `send_file` and
 `recv_file`, mpicpy/mpicpy.py): a file of `size` bytes travels as
 ceil(size / chunkSize) chunks, all of `chunkSize` bytes except the last,
 which holds what remains.
 */
module ChunkPlan {
  import opened Common

  /** `get_num_chunks`: no chunks for an empty file, otherwise
      `((size - 1) // chunkSize) + 1`; the floor division raises when the
      chunk size is zero. */
  function NumChunks(size: nat, chunkSize: nat): (r: Result<nat>)
    ensures r.Err? <==> size > 0 && chunkSize == 0
    ensures r.Err? ==> r.failure == ZeroChunkSize
    ensures r.Ok? ==> (r.value == 0 <==> size == 0)
  {
    if size == 0 then Ok(0)
    else if chunkSize == 0 then Err(ZeroChunkSize)
    else Ok((size - 1) / chunkSize + 1)
  }

  /** `n` chunks of `chunkSize` bytes are the fewest that hold `size` bytes. */
  ghost predicate IsCeiling(n: nat, size: nat, chunkSize: nat) {
    (n - 1) * chunkSize < size <= n * chunkSize
  }

  /** The number of bytes chunk `i` of `n` carries: `chunkSize` for all but
      the last; the last carries `size % chunkSize`, or a whole chunk when
      that remainder is zero. */
  function ChunkLength(i: nat, n: nat, size: nat, chunkSize: nat): nat
    requires chunkSize > 0 && i < n
  {
    if i < n - 1 then chunkSize
    else if size % chunkSize == 0 then chunkSize
    else size % chunkSize
  }

  /** The lengths of all chunks of a file of `size` bytes, in order. */
  function ChunkLengths(size: nat, chunkSize: nat): (lens: seq<nat>)
    requires NumChunks(size, chunkSize).Ok?
    ensures |lens| == NumChunks(size, chunkSize).value
  {
    var n := NumChunks(size, chunkSize).value;
    seq(n, i requires 0 <= i < n => ChunkLength(i, n, size, chunkSize))
  }

  function Sum(s: seq<nat>): nat {
    if s == [] then 0 else Sum(s[..|s| - 1]) + s[|s| - 1]
  }

  // ---------------------------------------------------------------------------
  // Arithmetic facts

  /** Division with remainder has one answer. */
  lemma DivModUnique(q: nat, c: nat, s: nat)
    requires 0 <= s < c
    ensures (q * c + s) / c == q && (q * c + s) % c == s
  {
    var x := q * c + s;
    var q', s' := x / c, x % c;
    assert x == q' * c + s';
    if q' < q {
      assert (q' + 1) * c == q' * c + c;
      MulMonotone(q' + 1, q, c);
    } else if q < q' {
      assert (q + 1) * c == q * c + c;
      MulMonotone(q + 1, q', c);
    }
  }

  /** The chunk count is the ceiling of size over chunk size, and the last
      chunk holds `size - (n - 1) * chunkSize` bytes. */
  lemma PlanArithmetic(size: nat, chunkSize: nat)
    requires size > 0 && chunkSize > 0
    ensures var n := NumChunks(size, chunkSize).value;
      && IsCeiling(n, size, chunkSize)
      && ChunkLength(n - 1, n, size, chunkSize) == size - (n - 1) * chunkSize
  {
    var n := NumChunks(size, chunkSize).value;
    var q, r := (size - 1) / chunkSize, (size - 1) % chunkSize;
    assert size == q * chunkSize + r + 1;
    assert n - 1 == q;
    assert n * chunkSize == q * chunkSize + chunkSize;
    if r + 1 < chunkSize {
      DivModUnique(q, chunkSize, r + 1);
    } else {
      assert size == (q + 1) * chunkSize + 0;
      DivModUnique(q + 1, chunkSize, 0);
    }
  }

  /** `get_num_chunks` is 0 exactly for an empty file and otherwise the
      ceiling of size over chunk size, and no other count is. */
  lemma NumChunksIsCeiling(size: nat, chunkSize: nat, m: nat)
    requires chunkSize > 0
    ensures NumChunks(size, chunkSize).Ok?
    ensures size == 0 ==> NumChunks(size, chunkSize).value == 0
    ensures size > 0 ==> IsCeiling(NumChunks(size, chunkSize).value, size, chunkSize)
    ensures size > 0 && IsCeiling(m, size, chunkSize) ==> m == NumChunks(size, chunkSize).value
  {
    if size > 0 {
      var n := NumChunks(size, chunkSize).value;
      PlanArithmetic(size, chunkSize);
      if IsCeiling(m, size, chunkSize) {
        if m < n {
          assert m * chunkSize <= (n - 1) * chunkSize by {
            MulMonotone(m, n - 1, chunkSize);
          }
        } else if m > n {
          assert n * chunkSize <= (m - 1) * chunkSize by {
            MulMonotone(n, m - 1, chunkSize);
          }
        }
      }
    }
  }

  lemma {:induction false} MulMonotone(a: nat, b: nat, c: nat)
    requires a <= b
    ensures a * c <= b * c
  {
    if a < b {
      MulMonotone(a, b - 1, c);
      assert b * c == (b - 1) * c + c;
    }
  }

  /** A file of at most one chunk travels as one chunk holding all of it. */
  lemma PlanOfOneChunk(size: nat, chunkSize: nat)
    requires 0 < size <= chunkSize
    ensures NumChunks(size, chunkSize) == Ok(1)
    ensures ChunkLength(0, 1, size, chunkSize) == size
  {
    DivModUnique(0, chunkSize, size - 1);
    if size < chunkSize {
      DivModUnique(0, chunkSize, size);
    } else {
      DivModUnique(1, chunkSize, 0);
    }
  }

  /** Taking a whole first chunk off a file of more than one chunk leaves one
      chunk fewer and the same remainder for the last. */
  lemma PlanAfterFirstChunk(size: nat, chunkSize: nat)
    requires 0 < chunkSize < size
    ensures NumChunks(size, chunkSize).value == NumChunks(size - chunkSize, chunkSize).value + 1
    ensures size % chunkSize == (size - chunkSize) % chunkSize
  {
    var q, r := (size - 1) / chunkSize, (size - 1) % chunkSize;
    assert size - 1 == q * chunkSize + r;
    assert q >= 1;
    assert size - chunkSize - 1 == (q - 1) * chunkSize + r;
    DivModUnique(q - 1, chunkSize, r);
    if r + 1 < chunkSize {
      DivModUnique(q, chunkSize, r + 1);
      DivModUnique(q - 1, chunkSize, r + 1);
    } else {
      assert size == (q + 1) * chunkSize + 0;
      DivModUnique(q + 1, chunkSize, 0);
      DivModUnique(q, chunkSize, 0);
    }
  }

  /** Every chunk carries between one byte and a whole chunk; all but the
      last carry a whole chunk. */
  lemma ChunkLengthBounds(size: nat, chunkSize: nat, i: nat)
    requires chunkSize > 0
    requires i < NumChunks(size, chunkSize).value
    ensures var n := NumChunks(size, chunkSize).value;
      && 0 < ChunkLength(i, n, size, chunkSize) <= chunkSize
      && (i < n - 1 ==> ChunkLength(i, n, size, chunkSize) == chunkSize)
  {
  }

  lemma {:induction false} SumOfWholeChunks(lens: seq<nat>, k: nat, chunkSize: nat)
    requires k <= |lens|
    requires forall i | 0 <= i < k :: lens[i] == chunkSize
    ensures Sum(lens[..k]) == k * chunkSize
  {
    if k > 0 {
      assert lens[..k][..k - 1] == lens[..k - 1];
      SumOfWholeChunks(lens, k - 1, chunkSize);
    }
  }

  /** The chunk lengths add up to the file size. */
  lemma ChunkLengthsSum(size: nat, chunkSize: nat)
    requires NumChunks(size, chunkSize).Ok?
    ensures Sum(ChunkLengths(size, chunkSize)) == size
  {
    var lens := ChunkLengths(size, chunkSize);
    var n := |lens|;
    if n > 0 {
      PlanArithmetic(size, chunkSize);
      SumOfWholeChunks(lens, n - 1, chunkSize);
      assert lens[..n] == lens;
      assert lens[..n][..n - 1] == lens[..n - 1];
    }
  }

  /** The cases of the unit tests of `get_num_chunks`, with the chunk lengths. */
  lemma PlanExamples()
    ensures NumChunks(0, 10) == Ok(0)
    ensures NumChunks(300, 120) == Ok(3) && ChunkLengths(300, 120) == [120, 120, 60]
    ensures NumChunks(1000, 1) == Ok(1000)
    ensures forall i | 0 <= i < 1000 :: ChunkLengths(1000, 1)[i] == 1
  {
    assert ChunkLengths(300, 120)[2] == 60;
  }
}

=== FILE: chunk_size.dfy ===
/**
 The chunk-size option of the current revision (`parse_chunk_size`,
 mpicpy/mpicpy.py): an integer byte count, or a string of decimal digits
 followed by an optional unit `k`, `m` or `g` (binary multiples), an optional
 `i` and an optional `b`, all case-insensitive.
 */
module ChunkSize {
  import opened Common
  import opened Text

  /** What `parse_chunk_size` may be given: a Python `int` or a `str`. */
  datatype ChunkSizeArg = IntArg(n: int) | StrArg(s: string)

  /** Groups 1 and 3 of a match of `^(\d+?)(([kmg])i?b?)?$`: the digits and
      the unit letter as written (empty when there is no unit). */
  datatype SizeMatch = SizeMatch(digits: string, unit: string)

  /** What may follow the unit letter: an optional `i`, then an optional `b`. */
  predicate IsUnitTail(t: string) {
    var l := LowerAll(t);
    l == "" || l == "i" || l == "b" || l == "ib"
  }

  /** The optional group `([kmg]i?b?)` of the pattern. */
  predicate IsSizeSuffix(u: string) {
    u == [] || (IsUnitLetter(u[0]) && IsUnitTail(u[1..]))
  }

  /** `re.match(r'^(\d+?)(([kmg])i?b?)?$', s, re.I)`, reduced to its groups. */
  function MatchChunkSize(s: string): (m: Option<SizeMatch>)
    ensures m.Some? ==> |m.value.digits| > 0 && AllDigits(m.value.digits)
    ensures m.Some? ==> m.value.unit == [] || (|m.value.unit| == 1 && IsUnitLetter(m.value.unit[0]))
  {
    var body := AnchoredBody(s);
    var k := LeadingDigits(body);
    if k > 0 && IsSizeSuffix(body[k..]) then
      Some(SizeMatch(body[..k], if k == |body| then "" else [body[k]]))
    else
      None
  }

  /** The `if`/`elif` chain on the lower-cased unit letter. */
  function ScaleBySuffix(digits: nat, suffix: string): Result<nat> {
    if suffix == "k" then Ok(digits * 1024)
    else if suffix == "m" then Ok(digits * (1024 * 1024))
    else if suffix == "g" then Ok(digits * (1024 * 1024 * 1024))
    else if suffix == "" then Ok(digits)
    else Err(UnknownSuffix)
  }

  /** `parse_chunk_size`: the number of bytes the option stands for. */
  function ParseChunkSize(arg: ChunkSizeArg): (r: Result<nat>)
    ensures arg.IntArg? ==> (r.Ok? <==> arg.n >= 0)
    ensures arg.IntArg? && r.Ok? ==> r.value == arg.n
    ensures arg.IntArg? && r.Err? ==> r.failure == NegativeChunkSize
    ensures arg.StrArg? && r.Err? ==> r.failure == UnparsableChunkSize
  {
    match arg
    case IntArg(n) => if n >= 0 then Ok(n) else Err(NegativeChunkSize)
    case StrArg(s) =>
      match MatchChunkSize(s)
      case None => Err(UnparsableChunkSize)
      case Some(m) =>
        assert m.unit != [] ==> LowerAll(m.unit) == [Lower(m.unit[0])];
        ScaleBySuffix(DecimalValue(m.digits), LowerAll(m.unit))
  }

  // ---------------------------------------------------------------------------
  // The grammar and the multipliers, stated independently of the matcher.

  /** Digits, then a unit suffix, covering the whole of `t`. */
  ghost predicate InGrammar(t: string) {
    exists k :: 0 < k <= |t| && AllDigits(t[..k]) && IsSizeSuffix(t[k..])
  }

  /** What `re.match` with `^...$` accepts: the grammar, or the grammar
      followed by a single final newline. */
  ghost predicate Accepted(s: string) {
    InGrammar(s) || (|s| > 0 && s[|s| - 1] == '\n' && InGrammar(s[..|s| - 1]))
  }

  /** Binary multiples: `k` is 2^10, `m` is 2^20, `g` is 2^30, no unit is 1. */
  function UnitMultiplier(u: string): nat
    requires IsSizeSuffix(u)
  {
    if u == [] then 1
    else if Lower(u[0]) == 'k' then 1024
    else if Lower(u[0]) == 'm' then 1024 * 1024
    else 1024 * 1024 * 1024
  }

  lemma UnitLetterLowered(c: char)
    requires IsUnitLetter(c)
    ensures Lower(c) == 'k' || Lower(c) == 'm' || Lower(c) == 'g'
  {
    assert c == 'k' || c == 'm' || c == 'g' || c == 'K' || c == 'M' || c == 'G';
  }

  /** The split point of a string in the grammar is its run of leading digits,
      and such a string never ends in a newline. */
  lemma {:induction false} GrammarSplit(t: string, k: nat)
    requires 0 < k <= |t| && AllDigits(t[..k]) && IsSizeSuffix(t[k..])
    ensures LeadingDigits(t) == k
    ensures t[|t| - 1] != '\n'
    ensures AnchoredBody(t) == t
    ensures AnchoredBody(t + "\n") == t
  {
    var u := t[k..];
    if u != [] {
      assert !IsDigit(u[0]) by { assert u[0] in "kmgKMG"; }
      if |u| > 1 {
        var l := LowerAll(u[1..]);
        assert l[|l| - 1] == 'i' || l[|l| - 1] == 'b';
        assert u[|u| - 1] == u[1..][|l| - 1];
      }
    } else {
      assert IsDigit(t[..k][k - 1]);
    }
    assert t == t[..k] + u;
    LeadingDigitsOfConcat(t[..k], u);
    assert (t + "\n")[..|t + "\n"| - 1] == t;
  }

  /** The matcher accepts exactly the strings of the grammar (with `$`'s
      allowance for one final newline). */
  lemma ParseAcceptsExactlyTheGrammar(s: string)
    ensures ParseChunkSize(StrArg(s)).Ok? <==> Accepted(s)
  {
    var body := AnchoredBody(s);
    if ParseChunkSize(StrArg(s)).Ok? {
      var k := LeadingDigits(body);
      assert 0 < k <= |body| && AllDigits(body[..k]) && IsSizeSuffix(body[k..]);
      assert InGrammar(body);
      if body != s {
        assert s[..|s| - 1] == body;
      }
    }
    if Accepted(s) {
      var t := if InGrammar(s) then s else s[..|s| - 1];
      var k :| 0 < k <= |t| && AllDigits(t[..k]) && IsSizeSuffix(t[k..]);
      GrammarSplit(t, k);
      if !InGrammar(s) {
        assert s == t + "\n";
      }
      assert body == t;
    }
  }

  /** The groups the matcher reports for digits followed by a unit. */
  lemma MatchOfDigitsAndUnit(d: string, u: string)
    requires |d| > 0 && AllDigits(d) && IsSizeSuffix(u)
    ensures MatchChunkSize(d + u) == Some(SizeMatch(d, if u == [] then "" else [u[0]]))
    ensures MatchChunkSize(d + u + "\n") == MatchChunkSize(d + u)
  {
    var t := d + u;
    assert t[..|d|] == d && t[|d|..] == u;
    GrammarSplit(t, |d|);
    if u != [] {
      assert t[|d|] == u[0];
    }
  }

  /** The suffix dispatch applies the binary multiplier of the unit. */
  lemma ScaleByUnit(v: nat, u: string)
    requires IsSizeSuffix(u)
    ensures ScaleBySuffix(v, LowerAll(if u == [] then "" else [u[0]])) == Ok(v * UnitMultiplier(u))
  {
    if u != [] {
      UnitLetterLowered(u[0]);
      assert LowerAll([u[0]]) == [Lower(u[0])];
    }
  }

  /** Digits followed by a unit stand for the digits' value times the unit's
      binary multiplier, with or without a final newline. */
  lemma ParseValue(d: string, u: string)
    requires |d| > 0 && AllDigits(d) && IsSizeSuffix(u)
    ensures ParseChunkSize(StrArg(d + u)) == Ok(DecimalValue(d) * UnitMultiplier(u))
    ensures ParseChunkSize(StrArg(d + u + "\n")) == Ok(DecimalValue(d) * UnitMultiplier(u))
  {
    MatchOfDigitsAndUnit(d, u);
    ScaleByUnit(DecimalValue(d), u);
  }

  /** Every spelling of one gibibyte in the unit tests of `parse_chunk_size`. */
  lemma ParseGibibyteSpellings()
    ensures forall u | u in ["g", "gb", "gib", "GiB", "GB"] :: ParseChunkSize(StrArg("1" + u)) == Ok(1073741824)
  {
    assert DecimalValue("1") == 1;
    forall u | u in ["g", "gb", "gib", "GiB", "GB"]
      ensures ParseChunkSize(StrArg("1" + u)) == Ok(1073741824)
    {
      assert UnitMultiplier(u) * DecimalValue("1") == 1073741824;
      ParseValue("1", u);
    }
  }

  /** Every spelling of one mebibyte in the unit tests of `parse_chunk_size`. */
  lemma ParseMebibyteSpellings()
    ensures forall u | u in ["m", "mb", "mib", "MiB", "MB"] :: ParseChunkSize(StrArg("1" + u)) == Ok(1048576)
  {
    assert DecimalValue("1") == 1;
    forall u | u in ["m", "mb", "mib", "MiB", "MB"]
      ensures ParseChunkSize(StrArg("1" + u)) == Ok(1048576)
    {
      assert UnitMultiplier(u) * DecimalValue("1") == 1048576;
      ParseValue("1", u);
    }
  }

  /** Every spelling of one kibibyte in the unit tests of `parse_chunk_size`. */
  lemma ParseKibibyteSpellings()
    ensures forall u | u in ["k", "kb", "kib", "KiB", "KB"] :: ParseChunkSize(StrArg("1" + u)) == Ok(1024)
  {
    assert DecimalValue("1") == 1;
    forall u | u in ["k", "kb", "kib", "KiB", "KB"]
      ensures ParseChunkSize(StrArg("1" + u)) == Ok(1024)
    {
      assert UnitMultiplier(u) * DecimalValue("1") == 1024;
      ParseValue("1", u);
    }
  }

  /** Plain digits are a byte count, as in the unit tests. */
  lemma ParsePlainDigitsExample()
    ensures ParseChunkSize(StrArg("10")) == Ok(10)
  {
    assert DecimalValue("10") == 10 by { assert "10"[..1] == "1"; }
    assert "10" == "10" + "";
    ParseValue("10", "");
  }

  /** Strings outside the grammar are refused. */
  lemma ParseRejectExamples()
    ensures ParseChunkSize(StrArg("")) == Err(UnparsableChunkSize)
    ensures ParseChunkSize(StrArg("abc")) == Err(UnparsableChunkSize)
    ensures ParseChunkSize(StrArg("1b")) == Err(UnparsableChunkSize)
  {
    assert LeadingDigits("abc") == 0;
    assert LeadingDigits("1b") == 1 by { assert "1b"[1..] == "b"; }
    assert "1b"[1..] == "b";
  }
}

=== FILE: common.dfy ===
/**
 Values shared by every part of the model: the optional value that stands for
 Python's `None`, the fatal conditions of a run, and the result of an
 operation that either yields a value or ends the run.
 */
module Common {

  type byte = bv8

  datatype Option<+T> = None | Some(value: T) {
    /** Python's `x or default` for a value that is `None` or present. Python's
        `or` also replaces a present falsy value (`0 or 5` is 5, where
        `Some(0).GetOr(5)` is 0); the two agree at every use here (`s or 0`,
        `calc_md5(...) or ""`) because each default is the falsy value of its
        type itself. */
    function GetOr(default: T): T {
      match this
      case Some(v) => v
      case None => default
    }
  }

  /**
   Every way a run of the tool ends early. In the current script a failure is
   either a call to `die`, which aborts the whole group, or a Python
   exception. Every exception raised in the modelled part of that script but
   one is raised alike on all ranks, so every rank ends; its top-level
   handler (mpicpy/mpicpy.py:402-412) itself fails on the undefined name
   `comm` before it reaches `Abort`. The one is `RootLacksFile` in the copy
   phase: `os.path.getsize` raises on the elected root alone, and the other
   ranks are left waiting in the size broadcast. The earlier script has no
   handler: an exception raised on one rank only, such as the elected root's
   own file check, ends that rank; the others are then left waiting in the
   size broadcast when `rank_suffix` is set, and without it fail first on
   `local_filename`.
   */
  datatype Failure =
    // root election
    | ConflictingSelectors     // more than one root selector was given
    | NoRankHasFile            // no rank reports the file
    | MultipleRanksHaveFile    // automatic election found the file on several ranks
    | RootRankOutOfRange       // an explicit root rank outside [0, group size)
    | RootLacksFile            // the elected root has no file to send
    | RootNotRegularFile       // the elected root's path is not a regular file
    | EmptyMd5Prefix           // an empty checksum prefix was given
    | NoMd5Match               // no rank's checksum starts with the prefix
    | NoSuchHost               // no rank runs on the named host
    | AmbiguousHost            // several ranks run on the named host
    | MtimeNotImplemented      // election by modification time is not implemented
    | RootNotInteger           // an all-digit root option could not be converted
    | InvalidRootOption        // a root option that is neither digits nor "auto"
    // chunk size and chunk planning
    | NegativeChunkSize        // an integer chunk size below zero
    | UnparsableChunkSize      // a chunk-size string outside the grammar
    | UnknownSuffix            // the final `assert False` of the suffix dispatch
    | ZeroChunkSize            // division by a zero chunk size
    // transfer and verification
    | CollectiveMismatch       // a broadcast whose buffer length differs between root and receiver
    | ChecksumMismatch         // the gathered checksums are not all the same

  datatype Result<+T> = Ok(value: T) | Err(failure: Failure)
}

=== FILE: copy.dfy ===
/**
 The copy phase of `main` (mpicpy/mpicpy.py) once the root is known: the
 root sends its file, every other rank receives it, every rank computes the
 digest of its copy and rank 0 passes its verdict on the gathered digests.
 The digest function stands for MD5 and is left abstract.
 */
module Copy {
  import opened Common
  import opened ChunkPlan
  import opened Transfer
  import opened Checksum

  /** Runs the copy for a group of `groupSize` ranks rooted at `root` and
      returns every rank's copy, indexed by rank. `rootFile` is the root's
      file, `None` when its path does not exist: the election may choose such
      a root (`--hostname` never looks at the file, and the size election
      reads an absent size as 0), and then `os.path.getsize` in `send_file`
      raises on the root before anything is sent. Otherwise every copy
      equals the root's file and the checksum verdict passes; the only other
      failure is a zero chunk size for a non-empty file. */
  method CopyAndVerify(rootFile: Option<seq<byte>>, chunkSize: nat, groupSize: nat, root: nat, digest: seq<byte> -> string)
    returns (r: Result<seq<seq<byte>>>)
    requires root < groupSize
    ensures rootFile.None? ==> r == Err(RootLacksFile)
    ensures rootFile.Some? ==> (r.Ok? <==> |rootFile.value| == 0 || chunkSize > 0)
    ensures rootFile.Some? && r.Err? ==> r.failure == ZeroChunkSize
    ensures r.Ok? ==> rootFile.Some? && |r.value| == groupSize
                      && forall i | 0 <= i < groupSize :: r.value[i] == rootFile.value
  {
    if rootFile.None? {
      return Err(RootLacksFile);
    }
    var file := rootFile.value;
    var sent, _ := SendFile(file, chunkSize);
    if sent.Err? {
      return Err(sent.failure);
    }
    SplitConcat(file, chunkSize);
    assert sent.value[..NumChunks(|file|, chunkSize).value] == sent.value;
    var copies: seq<seq<byte>> := [];
    for rank := 0 to groupSize
      invariant |copies| == rank
      invariant forall i | 0 <= i < rank :: copies[i] == file
    {
      if rank == root {
        copies := copies + [file];
      } else {
        var received := RecvFile(|file|, chunkSize, sent.value);
        assert received.Ok?;
        copies := copies + [received.value];
      }
    }
    var checksums := seq(groupSize, i requires 0 <= i < groupSize => Some(digest(copies[i])));
    VerdictOfCopies(file, copies, root, digest);
    var verdict := Verdict(checksums);
    r := if verdict.Ok? then Ok(copies) else Err(ChecksumMismatch);
  }
}

=== FILE: election.dfy ===
/**
 Root election (`determine_root_rank` and `max_with_index`,
 mpicpy/mpicpy.py). Every rank runs the same code: it checks the selectors
 it was given, gathers one fact from every rank and reduces the gathered
 vector to a rank. The gathered vectors are derived here from `world`, the
 local facts of all ranks indexed by rank, and `me` is the rank running the
 code.
 */
module Election {
  import opened Common

  /** The root selectors of the command line: `--size` and `--mtime` are
      `True` when given and `None` otherwise, `--auto` is `True` or `False`. */
  datatype Args = Args(
    size: bool,
    md5: Option<string>,
    mtime: bool,
    rank: Option<int>,
    hostname: Option<string>,
    auto: bool)

  /** What one rank observes before the election: whether the path exists,
      its size (absent when `getsize` finds no file), its MD5 hex digest
      (absent when there is no file) and the rank's host name. */
  datatype RankFacts = RankFacts(hasFile: bool, size: Option<nat>, md5: Option<string>, hostname: string)

  // ---------------------------------------------------------------------------
  // Reductions over a gathered vector

  /** `lst.count(True)` */
  function CountTrue(v: seq<bool>): nat {
    if v == [] then 0 else (if v[0] then 1 else 0) + CountTrue(v[1..])
  }

  /** `lst.index(True)`: the lowest rank holding `True`. */
  function IndexOfTrue(v: seq<bool>): (i: nat)
    requires true in v
    ensures i < |v| && v[i]
    ensures forall j | 0 <= j < i :: !v[j]
  {
    if v[0] then 0 else 1 + IndexOfTrue(v[1..])
  }

  lemma {:induction false} CountTrueZero(v: seq<bool>)
    ensures CountTrue(v) == 0 <==> true !in v
  {
    if v != [] {
      CountTrueZero(v[1..]);
      assert v == [v[0]] + v[1..];
    }
  }

  lemma {:induction false} CountTrueConcat(a: seq<bool>, b: seq<bool>)
    ensures CountTrue(a + b) == CountTrue(a) + CountTrue(b)
  {
    if a != [] {
      assert (a + b)[1..] == a[1..] + b;
      CountTrueConcat(a[1..], b);
    } else {
      assert a + b == b;
    }
  }

  /** A `True` at `i` is the only one exactly when `True` is counted once. */
  lemma CountOneIsUnique(v: seq<bool>, i: nat)
    requires i < |v| && v[i]
    ensures CountTrue(v) == 1 <==> forall j | 0 <= j < |v| && j != i :: !v[j]
  {
    var before, after := v[..i], v[i + 1..];
    assert v == before + [v[i]] + after;
    CountTrueConcat(before + [v[i]], after);
    CountTrueConcat(before, [v[i]]);
    CountTrueZero(before);
    CountTrueZero(after);
    assert forall j | 0 <= j < i :: v[j] == before[j];
    assert forall j | i < j < |v| :: v[j] == after[j - i - 1];
  }

  /** Election that needs exactly one `True` in the gathered vector: no `True`
      fails with `none`, several fail with `many`. */
  function ElectUnique(v: seq<bool>, none: Failure, many: Failure): (r: Result<nat>)
    ensures r.Ok? <==> CountTrue(v) == 1
    ensures r.Ok? ==> r.value < |v| && v[r.value]
    ensures r.Ok? ==> forall j | 0 <= j < |v| && j != r.value :: !v[j]
    ensures r.Err? && true !in v ==> r.failure == none
    ensures r.Err? && true in v ==> r.failure == many
  {
    CountTrueZero(v);
    var count := CountTrue(v);
    if count == 0 then Err(none)
    else if count > 1 then Err(many)
    else
      var i := IndexOfTrue(v);
      CountOneIsUnique(v, i);
      Ok(i)
  }

  /** `max_with_index`: `max(enumerate(lst), key=lambda x: x[1])`, which keeps
      the first of equal maxima. */
  function MaxWithIndex(lst: seq<int>): (r: (nat, int))
    requires |lst| > 0
    ensures r.0 < |lst| && r.1 == lst[r.0]
    ensures forall j | 0 <= j < |lst| :: lst[j] <= r.1
    ensures forall j | 0 <= j < r.0 :: lst[j] < r.1
  {
    if |lst| == 1 then (0, lst[0])
    else
      var best := MaxWithIndex(lst[..|lst| - 1]);
      if lst[|lst| - 1] > best.1 then (|lst| - 1, lst[|lst| - 1]) else best
  }

  // ---------------------------------------------------------------------------
  // The strategies

  /** `--rank r`: the given rank, which must lie in the group; the named rank
      itself dies when it has no file. */
  function ElectByRank(root: int, groupSize: nat, me: nat, localHasFile: bool): (r: Result<nat>)
    ensures r.Ok? <==> 0 <= root < groupSize && (root == me ==> localHasFile)
    ensures r.Ok? ==> r.value == root
    ensures r.Err? && !(0 <= root < groupSize) ==> r.failure == RootRankOutOfRange
  {
    if !(0 <= root < groupSize) then Err(RootRankOutOfRange)
    else if root == me && !localHasFile then Err(RootLacksFile)
    else Ok(root)
  }

  /** `--size`: fails when every rank reports no file; otherwise the first
      rank of largest size, where `s or 0` reads an absent size as 0. */
  function ElectBySize(sizes: seq<Option<nat>>): (r: Result<nat>)
    ensures r.Ok? <==> exists i | 0 <= i < |sizes| :: sizes[i].Some?
    ensures r.Err? ==> r.failure == NoRankHasFile
    ensures r.Ok? ==> r.value < |sizes|
    ensures r.Ok? ==> forall j | 0 <= j < |sizes| :: sizes[j].GetOr(0) <= sizes[r.value].GetOr(0)
    ensures r.Ok? ==> forall j | 0 <= j < r.value :: sizes[j].GetOr(0) < sizes[r.value].GetOr(0)
  {
    if forall i | 0 <= i < |sizes| :: sizes[i].None? then Err(NoRankHasFile)
    else
      var orZero := seq(|sizes|, i requires 0 <= i < |sizes| => sizes[i].GetOr(0) as int);
      assert forall j | 0 <= j < |sizes| :: orZero[j] == sizes[j].GetOr(0);
      Ok(MaxWithIndex(orZero).0)
  }

  /** The size election as the docstring of `determine_root_rank` states it
      ("the rank that has the largest file in size"): an absent size ranks
      below every present one, so only a rank that has the file can win. */
  function ElectBySizeIntended(sizes: seq<Option<nat>>): (r: Result<nat>)
    ensures r.Ok? <==> exists i | 0 <= i < |sizes| :: sizes[i].Some?
    ensures r.Err? ==> r.failure == NoRankHasFile
    ensures r.Ok? ==> r.value < |sizes| && sizes[r.value].Some?
    ensures r.Ok? ==> forall j | 0 <= j < |sizes| && sizes[j].Some? :: sizes[j].value <= sizes[r.value].value
    ensures r.Ok? ==> forall j | 0 <= j < r.value && sizes[j].Some? :: sizes[j].value < sizes[r.value].value
  {
    if forall i | 0 <= i < |sizes| :: sizes[i].None? then Err(NoRankHasFile)
    else
      var ranked := seq(|sizes|, i requires 0 <= i < |sizes| => if sizes[i].Some? then sizes[i].value as int else -1);
      var best := MaxWithIndex(ranked);
      assert forall j | 0 <= j < |sizes| && sizes[j].Some? :: ranked[j] == sizes[j].value;
      assert ranked[best.0] >= 0 by {
        var k :| 0 <= k < |sizes| && sizes[k].Some?;
        assert ranked[k] >= 0;
      }
      Ok(best.0)
  }

  /** The rank's digest, or `""` when it has no file, starts with the prefix:
      `(calc_md5(path) or "").find(prefix) == 0`. */
  predicate Md5Matches(digest: Option<string>, prefix: string) {
    prefix <= digest.GetOr("")
  }

  /** `--md5 prefix`: the prefix must not be empty; the first rank whose
      digest starts with it wins, and no such rank is fatal. */
  function ElectByMd5(prefix: string, digests: seq<Option<string>>): (r: Result<nat>)
    ensures r.Ok? <==> prefix != [] && exists i | 0 <= i < |digests| :: Md5Matches(digests[i], prefix)
    ensures r.Ok? ==> r.value < |digests| && digests[r.value].Some? && prefix <= digests[r.value].value
    ensures r.Ok? ==> forall j | 0 <= j < r.value :: !Md5Matches(digests[j], prefix)
  {
    if prefix == [] then Err(EmptyMd5Prefix)
    else
      var matches := seq(|digests|, i requires 0 <= i < |digests| => Md5Matches(digests[i], prefix));
      if true !in matches then
        assert forall i | 0 <= i < |digests| :: !Md5Matches(digests[i], prefix) by {
          forall i | 0 <= i < |digests| ensures !Md5Matches(digests[i], prefix) { assert matches[i] == Md5Matches(digests[i], prefix); }
        }
        Err(NoMd5Match)
      else
        var i := IndexOfTrue(matches);
        assert forall j | 0 <= j < i :: matches[j] == Md5Matches(digests[j], prefix);
        Ok(i)
  }

  // ---------------------------------------------------------------------------
  // The whole election

  /** The selectors counted before the election; `--auto` is not among them. */
  function SelectorCount(args: Args): nat {
    (if args.size then 1 else 0) + (if args.md5.Some? then 1 else 0) + (if args.mtime then 1 else 0)
    + (if args.rank.Some? then 1 else 0) + (if args.hostname.Some? then 1 else 0)
  }

  /** The vectors each strategy gathers from all ranks (`comm.allgather`),
      indexed by rank. */
  function GatheredHasFile(world: seq<RankFacts>): (v: seq<bool>)
    ensures |v| == |world| && forall i | 0 <= i < |world| :: v[i] == world[i].hasFile
  {
    seq(|world|, i requires 0 <= i < |world| => world[i].hasFile)
  }

  function GatheredSizes(world: seq<RankFacts>): (v: seq<Option<nat>>)
    ensures |v| == |world| && forall i | 0 <= i < |world| :: v[i] == world[i].size
  {
    seq(|world|, i requires 0 <= i < |world| => world[i].size)
  }

  function GatheredMd5s(world: seq<RankFacts>): (v: seq<Option<string>>)
    ensures |v| == |world| && forall i | 0 <= i < |world| :: v[i] == world[i].md5
  {
    seq(|world|, i requires 0 <= i < |world| => world[i].md5)
  }

  /** `hostname == socket.gethostname()`, gathered. */
  function GatheredOnHost(world: seq<RankFacts>, host: string): (v: seq<bool>)
    ensures |v| == |world| && forall i | 0 <= i < |world| :: v[i] == (world[i].hostname == host)
  {
    seq(|world|, i requires 0 <= i < |world| => world[i].hostname == host)
  }

  /** `determine_root_rank` as rank `me` runs it. */
  function DetermineRootRank(args: Args, world: seq<RankFacts>, me: nat): (r: Result<nat>)
    requires me < |world|
    ensures r.Ok? ==> r.value < |world|
    ensures SelectorCount(args) > 1 ==> r == Err(ConflictingSelectors)
  {
    var selected := SelectorCount(args);
    if selected > 1 then
      Err(ConflictingSelectors)
    else if selected == 0 then
      ElectUnique(GatheredHasFile(world), NoRankHasFile, MultipleRanksHaveFile)
    else if args.rank.Some? then
      ElectByRank(args.rank.value, |world|, me, world[me].hasFile)
    else if args.size then
      ElectBySize(GatheredSizes(world))
    else if args.md5.Some? then
      ElectByMd5(args.md5.value, GatheredMd5s(world))
    else if args.hostname.Some? then
      ElectUnique(GatheredOnHost(world, args.hostname.value), NoSuchHost, AmbiguousHost)
    else
      Err(MtimeNotImplemented)
  }

  // ---------------------------------------------------------------------------
  // Properties of the election

  /** Every rank elects the same root. Apart from `--rank`, where only the
      named rank checks its own file, the outcome does not depend on which
      rank computes it at all. */
  lemma ElectionAgreement(args: Args, world: seq<RankFacts>, a: nat, b: nat)
    requires a < |world| && b < |world|
    ensures DetermineRootRank(args, world, a).Ok? && DetermineRootRank(args, world, b).Ok?
            ==> DetermineRootRank(args, world, a).value == DetermineRootRank(args, world, b).value
    ensures args.rank.None? || SelectorCount(args) > 1 ==> DetermineRootRank(args, world, a) == DetermineRootRank(args, world, b)
  {
  }

  /** With exactly one selector, the election is that selector's strategy
      applied to the vector it gathers; `--mtime` always fails. */
  lemma SingleSelectorDispatch(args: Args, world: seq<RankFacts>, me: nat)
    requires me < |world| && SelectorCount(args) == 1
    ensures args.rank.Some? ==> DetermineRootRank(args, world, me) == ElectByRank(args.rank.value, |world|, me, world[me].hasFile)
    ensures args.size ==> DetermineRootRank(args, world, me) == ElectBySize(GatheredSizes(world))
    ensures args.md5.Some? ==> DetermineRootRank(args, world, me) == ElectByMd5(args.md5.value, GatheredMd5s(world))
    ensures args.hostname.Some? ==>
      DetermineRootRank(args, world, me) == ElectUnique(GatheredOnHost(world, args.hostname.value), NoSuchHost, AmbiguousHost)
    ensures args.mtime ==> DetermineRootRank(args, world, me) == Err(MtimeNotImplemented)
  {
  }

  /** With no selector, the root is the one rank that has the file: a rank
      `i` that alone has it is elected, an elected rank alone has it, no rank
      having it is fatal, and so are several ranks having it. */
  lemma AutoElection(args: Args, world: seq<RankFacts>, me: nat, i: nat)
    requires me < |world| && i < |world| && SelectorCount(args) == 0
    ensures var r := DetermineRootRank(args, world, me);
      && (world[i].hasFile && (forall j | 0 <= j < |world| && j != i :: !world[j].hasFile) ==> r == Ok(i))
      && (r.Ok? ==> world[r.value].hasFile && forall j | 0 <= j < |world| && j != r.value :: !world[j].hasFile)
      && (r == Err(NoRankHasFile) <==> forall j | 0 <= j < |world| :: !world[j].hasFile)
      && (r.Err? && world[i].hasFile ==> r == Err(MultipleRanksHaveFile))
  {
    var v := GatheredHasFile(world);
    assert DetermineRootRank(args, world, me) == ElectUnique(v, NoRankHasFile, MultipleRanksHaveFile);
    if v[i] {
      CountOneIsUnique(v, i);
    }
    CountTrueZero(v);
  }

  /** With `--hostname h` alone, the root is the one rank running on `h`:
      no such rank and several such ranks are both fatal. */
  lemma HostnameElection(args: Args, world: seq<RankFacts>, me: nat, i: nat)
    requires me < |world| && i < |world|
    requires SelectorCount(args) == 1 && args.hostname.Some?
    ensures var r := DetermineRootRank(args, world, me);
      var host := args.hostname.value;
      && (world[i].hostname == host && (forall j | 0 <= j < |world| && j != i :: world[j].hostname != host) ==> r == Ok(i))
      && (r.Ok? ==> world[r.value].hostname == host && forall j | 0 <= j < |world| && j != r.value :: world[j].hostname != host)
      && (r == Err(NoSuchHost) <==> forall j | 0 <= j < |world| :: world[j].hostname != host)
      && (r.Err? && world[i].hostname == host ==> r == Err(AmbiguousHost))
  {
    var v := GatheredOnHost(world, args.hostname.value);
    assert DetermineRootRank(args, world, me) == ElectUnique(v, NoSuchHost, AmbiguousHost);
    if v[i] {
      CountOneIsUnique(v, i);
    }
    CountTrueZero(v);
  }

  /** `--hostname h` as evidently intended: the election of the one rank on
      `h` stands, and, as with `--rank`, that rank itself dies when it has no
      file to send. */
  function ElectByHostnameIntended(world: seq<RankFacts>, host: string, me: nat): (r: Result<nat>)
    requires me < |world|
    ensures r.Ok? ==> r.value < |world| && world[r.value].hostname == host
    ensures r.Ok? ==> forall j | 0 <= j < |world| && j != r.value :: world[j].hostname != host
    ensures r.Ok? && r.value == me ==> world[me].hasFile
    ensures r.Err? ==> r.failure == NoSuchHost || r.failure == AmbiguousHost || r.failure == RootLacksFile
    ensures r == Err(RootLacksFile) ==> world[me].hostname == host && !world[me].hasFile
  {
    var elected := ElectUnique(GatheredOnHost(world, host), NoSuchHost, AmbiguousHost);
    if elected.Ok? && elected.value == me && !world[me].hasFile then Err(RootLacksFile)
    else elected
  }

  /** With one rank `i` on the host, the intended election gives `i` on every
      rank except `i` itself when it has no file; it departs from the
      election as written only there. */
  lemma HostnameElectionIntended(args: Args, world: seq<RankFacts>, me: nat, i: nat)
    requires me < |world| && i < |world|
    requires SelectorCount(args) == 1 && args.hostname.Some?
    requires world[i].hostname == args.hostname.value
    requires forall j | 0 <= j < |world| && j != i :: world[j].hostname != args.hostname.value
    ensures ElectByHostnameIntended(world, args.hostname.value, me)
         == if i == me && !world[me].hasFile then Err(RootLacksFile) else Ok(i)
    ensures DetermineRootRank(args, world, me) == Ok(i)
  {
    var v := GatheredOnHost(world, args.hostname.value);
    CountOneIsUnique(v, i);
    assert DetermineRootRank(args, world, me) == ElectUnique(v, NoSuchHost, AmbiguousHost);
  }

  /** `--hostname` never looks at the file: the one rank on the host is
      elected on every rank although it has no file, where the intended rule
      makes that rank die. */
  lemma HostnameElectsRankWithoutFile()
    ensures var args := Args(false, None, false, None, Some("b"), false);
      var world := [RankFacts(true, Some(5), Some("ab"), "a"), RankFacts(false, None, None, "b")];
      && DetermineRootRank(args, world, 0) == Ok(1)
      && DetermineRootRank(args, world, 1) == Ok(1)
      && !world[1].hasFile
      && ElectByHostnameIntended(world, "b", 0) == Ok(1)
      && ElectByHostnameIntended(world, "b", 1) == Err(RootLacksFile)
  {
    var args := Args(false, None, false, None, Some("b"), false);
    var world := [RankFacts(true, Some(5), Some("ab"), "a"), RankFacts(false, None, None, "b")];
    HostnameElectionIntended(args, world, 0, 1);
    HostnameElectionIntended(args, world, 1, 1);
  }

  /** `--auto` is never consulted: it is left out of the selector count and
      the outcome is the same with or without it. */
  lemma AutoFlagNeverConsulted(args: Args, world: seq<RankFacts>, me: nat, auto: bool)
    requires me < |world|
    ensures DetermineRootRank(args.(auto := auto), world, me) == DetermineRootRank(args, world, me)
    ensures args.size && args.md5.None? && !args.mtime && args.rank.None? && args.hostname.None?
            ==> DetermineRootRank(args.(auto := true), world, me) == ElectBySize(GatheredSizes(world))
  {
  }

  /** The size election as written and as intended pick different ranks only
      when every rank that has the file has an empty one. */
  lemma SizeElectionsDifferOnlyOnEmptyFiles(sizes: seq<Option<nat>>)
    ensures ElectBySize(sizes) != ElectBySizeIntended(sizes)
            ==> forall i | 0 <= i < |sizes| && sizes[i].Some? :: sizes[i].value == 0
  {
    var a, b := ElectBySize(sizes), ElectBySizeIntended(sizes);
    if exists k | 0 <= k < |sizes| && sizes[k].Some? :: sizes[k].value > 0 {
      var k :| 0 <= k < |sizes| && sizes[k].Some? && sizes[k].value > 0;
      var x, y := a.value, b.value;
      assert sizes[x].GetOr(0) >= sizes[k].GetOr(0) > 0;
      assert sizes[x].Some?;
      assert sizes[x].value <= sizes[y].value;
      assert sizes[y].GetOr(0) <= sizes[x].GetOr(0);
    }
  }

  /** `s or 0` lets a rank without the file win the size election: with no
      file on rank 0 and an empty file on rank 1, rank 0 is elected. */
  lemma SizeElectsRankWithoutFile()
    ensures ElectBySize([None, Some(0)]) == Ok(0)
    ensures ElectBySizeIntended([None, Some(0)]) == Ok(1)
  {
    var v: seq<Option<nat>> := [None, Some(0)];
    assert v[1].Some?;
  }

  /** `max` keeps the first of equal maxima: sizes 100, 100 and 50 elect rank 0. */
  lemma SizeTieBreakExample()
    ensures ElectBySize([Some(100), Some(100), Some(50)]) == Ok(0)
  {
    var v: seq<Option<nat>> := [Some(100), Some(100), Some(50)];
    assert v[0].Some?;
  }
}

=== FILE: legacy.dfy ===
/**
 The earlier top-level script (mpicpy.py): the root is chosen by a `root`
 option that is either a rank number or `auto`, the chunk size has a simpler
 grammar, and the receive loop sizes the last buffer differently. Its
 defects are reproduced here as written; the corrected definitions sit
 beside them.
 */
module Legacy {
  import opened Common
  import opened Text
  import opened ChunkPlan
  import opened Transfer
  import ChunkSize

  /** What `os.path.exists` and `os.path.isfile` report for a rank's path. */
  datatype FileKind = Missing | RegularFile | OtherKind

  /** `[idx for idx, val in enumerate(exists) if val is True]` */
  function TrueIndices(v: seq<bool>): (ranks: seq<nat>)
    ensures forall k | 0 <= k < |ranks| :: ranks[k] < |v| && v[ranks[k]]
    ensures forall i | 0 <= i < |v| && v[i] :: i in ranks
    ensures forall k, l | 0 <= k < l < |ranks| :: ranks[k] < ranks[l]
  {
    if v == [] then []
    else TrueIndices(v[..|v| - 1]) + (if v[|v| - 1] then [|v| - 1] else [])
  }

  /** `comm.allgather(os.path.exists(filepath))` */
  function Exists(world: seq<FileKind>): (v: seq<bool>)
    ensures |v| == |world| && forall i | 0 <= i < |world| :: v[i] == (world[i] != Missing)
  {
    seq(|world|, i requires 0 <= i < |world| => world[i] != Missing)
  }

  /** `re.match(r'^\d+$', root)` succeeds. */
  predicate IsNumeral(root: string) {
    var body := AnchoredBody(root);
    |body| > 0 && AllDigits(body)
  }

  /** The checks the elected root runs on its own path. */
  function CheckOwnFile(root: nat, me: nat, local: FileKind): (r: Result<nat>)
    ensures r.Ok? <==> root != me || local == RegularFile
    ensures r.Ok? ==> r.value == root
    ensures r.Err? && local == Missing ==> r.failure == RootLacksFile
    ensures r.Err? && local == OtherKind ==> r.failure == RootNotRegularFile
  {
    if root == me && local == Missing then Err(RootLacksFile)
    else if root == me && local != RegularFile then Err(RootNotRegularFile)
    else Ok(root)
  }

  /**
   `decide_root` as rank `me` runs it, `world` being what every rank's path
   is. A numeral reaches `int(m)`, which is given the match object and
   raises; `auto` elects the lowest rank whose path exists; anything else is
   refused.
   */
  function DecideRoot(root: string, world: seq<FileKind>, me: nat): (r: Result<nat>)
    requires me < |world|
    ensures IsNumeral(root) ==> r == Err(RootNotInteger)
    ensures !IsNumeral(root) && root != "auto" ==> r == Err(InvalidRootOption)
    ensures root == "auto" ==> (r == Err(NoRankHasFile) <==> forall i | 0 <= i < |world| :: world[i] == Missing)
    ensures r.Ok? ==> root == "auto" && r.value < |world| && world[r.value] != Missing
    ensures r.Ok? ==> forall j | 0 <= j < r.value :: world[j] == Missing
  {
    if IsNumeral(root) then Err(RootNotInteger)
    else if root == "auto" then
      var ranks := TrueIndices(Exists(world));
      if |ranks| == 0 then Err(NoRankHasFile)
      else
        assert forall j | 0 <= j < ranks[0] && world[j] != Missing :: j in ranks;
        CheckOwnFile(ranks[0], me, world[me])
    else Err(InvalidRootOption)
  }

  /** `decide_root` as evidently intended: `int(root)` converts the numeral,
      which names the root outright; only that rank checks its own path, and
      anything that is not a numeral is decided as before. */
  function DecideRootIntended(root: string, world: seq<FileKind>, me: nat): (r: Result<nat>)
    requires me < |world|
    ensures IsNumeral(root) ==>
      var k := DecimalValue(AnchoredBody(root));
      && (r.Ok? <==> k != me || world[me] == RegularFile)
      && (r.Ok? ==> r.value == k)
      && (r.Err? ==> r.failure == RootLacksFile || r.failure == RootNotRegularFile)
    ensures !IsNumeral(root) ==> r == DecideRoot(root, world, me)
  {
    if IsNumeral(root) then CheckOwnFile(DecimalValue(AnchoredBody(root)), me, world[me])
    else DecideRoot(root, world, me)
  }

  /** `auto` elects the lowest rank whose path exists, on every rank except
      that rank itself when its path is not a regular file. */
  lemma AutoElectsFirstOwner(world: seq<FileKind>, me: nat, i: nat)
    requires me < |world| && i < |world| && world[i] != Missing
    requires forall j | 0 <= j < i :: world[j] == Missing
    ensures DecideRoot("auto", world, me)
         == if i == me && world[i] == OtherKind then Err(RootNotRegularFile) else Ok(i)
  {
    assert !IsNumeral("auto") by { assert !IsDigit("auto"[0]); }
    var ranks := TrueIndices(Exists(world));
    assert i in ranks;
    assert ranks[0] == i;
  }

  /** A numeral root always fails as written, while the intended conversion
      elects that rank, e.g. rank 1 seen from rank 0. */
  lemma NumericRootRaises()
    ensures DecideRoot("1", [RegularFile, Missing], 0) == Err(RootNotInteger)
    ensures DecideRootIntended("1", [RegularFile, Missing], 0) == Ok(1)
  {
    assert IsNumeral("1");
    assert DecimalValue("1") == 1;
  }

  // ---------------------------------------------------------------------------
  // The chunk-size option

  /** `re.match(r'^(\d+)([kmg]?)$', s, re.I)` reduced to its two groups. */
  function MatchChunksize(s: string): (m: Option<(string, string)>)
    ensures m.Some? ==> |m.value.0| > 0 && AllDigits(m.value.0)
    ensures m.Some? ==> m.value.1 == [] || (|m.value.1| == 1 && IsUnitLetter(m.value.1[0]))
    ensures m.Some? ==> AnchoredBody(s) == m.value.0 + m.value.1
  {
    var body := AnchoredBody(s);
    var k := LeadingDigits(body);
    if k > 0 && k == |body| then Some((body, ""))
    else if k > 0 && k + 1 == |body| && IsUnitLetter(body[k]) then Some((body[..k], body[k..]))
    else None
  }

  /** `parse_chunksize` as written: `g` leaves the digits unscaled (`==` in
      place of `*=`), and no suffix reaches `assert False`. */
  function ParseChunksize(arg: ChunkSize.ChunkSizeArg): (r: Result<nat>)
    ensures arg.IntArg? ==> (r.Ok? <==> arg.n >= 0) && (r.Ok? ==> r.value == arg.n)
    ensures arg.IntArg? && r.Err? ==> r.failure == NegativeChunkSize
    ensures arg.StrArg? && r.Ok? ==> MatchChunksize(arg.s).Some? && MatchChunksize(arg.s).value.1 != []
    ensures arg.StrArg? ==> (r == Err(UnparsableChunkSize) <==> MatchChunksize(arg.s).None?)
    ensures arg.StrArg? ==> (r == Err(UnknownSuffix) <==> MatchChunksize(arg.s).Some? && MatchChunksize(arg.s).value.1 == [])
  {
    match arg
    case IntArg(n) => if n >= 0 then Ok(n) else Err(NegativeChunkSize)
    case StrArg(s) =>
      match MatchChunksize(s)
      case None => Err(UnparsableChunkSize)
      case Some((digits, unit)) =>
        var value := DecimalValue(digits);
        var suffix := LowerAll(unit);
        if suffix == "k" then Ok(value * 1024)
        else if suffix == "m" then Ok(value * (1024 * 1024))
        else if suffix == "g" then Ok(value)
        else Err(UnknownSuffix)
  }

  /** `parse_chunksize` as evidently intended: `g` scales by 2^30 and plain
      digits are a byte count. */
  function ParseChunksizeIntended(arg: ChunkSize.ChunkSizeArg): (r: Result<nat>)
    ensures arg.IntArg? ==> r == ParseChunksize(arg)
    ensures arg.StrArg? ==> (r.Ok? <==> MatchChunksize(arg.s).Some?)
  {
    match arg
    case IntArg(n) => if n >= 0 then Ok(n) else Err(NegativeChunkSize)
    case StrArg(s) =>
      match MatchChunksize(s)
      case None => Err(UnparsableChunkSize)
      case Some((digits, unit)) =>
        var value := DecimalValue(digits);
        var suffix := LowerAll(unit);
        if suffix == "k" then Ok(value * 1024)
        else if suffix == "m" then Ok(value * (1024 * 1024))
        else if suffix == "g" then Ok(value * (1024 * 1024 * 1024))
        else Ok(value)
  }

  lemma MatchOfDigitsAndLetter(d: string, u: string)
    requires |d| > 0 && AllDigits(d) && (u == [] || (|u| == 1 && IsUnitLetter(u[0])))
    ensures MatchChunksize(d + u) == Some((d, u))
    ensures MatchChunksize(d + u + "\n") == Some((d, u))
  {
    var t := d + u;
    assert t[..|d|] == d && t[|d|..] == u;
    ChunkSize.GrammarSplit(t, |d|);
    if u != [] {
      assert t[|d|] == u[0];
      assert !IsDigit(u[0]) by { assert u[0] in "kmgKMG"; }
    }
    LeadingDigitsOfConcat(d, u);
  }

  /** What a unit letter means as written: `k` and `m` scale by 2^10 and
      2^20, `g` leaves the digits as they are. */
  lemma ParseChunksizeMeaning(d: string, c: char)
    requires |d| > 0 && AllDigits(d) && IsUnitLetter(c)
    ensures var r := ParseChunksize(ChunkSize.StrArg(d + [c]));
      && (Lower(c) == 'k' ==> r == Ok(DecimalValue(d) * 1024))
      && (Lower(c) == 'm' ==> r == Ok(DecimalValue(d) * 1048576))
      && (Lower(c) == 'g' ==> r == Ok(DecimalValue(d)))
  {
    MatchOfDigitsAndLetter(d, [c]);
    var lowered := LowerAll([c]);
    assert lowered == [Lower(c)];
    if Lower(c) == 'k' {
      assert lowered == "k";
    } else if Lower(c) == 'm' {
      assert lowered == "m";
    } else if Lower(c) == 'g' {
      assert lowered == "g";
    }
  }

  /** Digits without a unit letter are refused as written. */
  lemma PlainDigitsRefused(d: string)
    requires |d| > 0 && AllDigits(d)
    ensures ParseChunksize(ChunkSize.StrArg(d)) == Err(UnknownSuffix)
  {
    MatchOfDigitsAndLetter(d, []);
    assert d + [] == d;
  }

  /** The intended legacy parser agrees with the current one on every string
      of the legacy grammar. */
  lemma IntendedAgreesWithCurrent(d: string, u: string)
    requires |d| > 0 && AllDigits(d) && (u == [] || (|u| == 1 && IsUnitLetter(u[0])))
    ensures ParseChunksizeIntended(ChunkSize.StrArg(d + u)) == ChunkSize.ParseChunkSize(ChunkSize.StrArg(d + u))
    ensures ParseChunksizeIntended(ChunkSize.StrArg(d + u + "\n")) == ChunkSize.ParseChunkSize(ChunkSize.StrArg(d + u + "\n"))
  {
    assert ChunkSize.IsSizeSuffix(u) by {
      if u != [] { assert LowerAll(u[1..]) == ""; }
    }
    MatchOfDigitsAndLetter(d, u);
    ChunkSize.ParseValue(d, u);
    if u != [] {
      ChunkSize.UnitLetterLowered(u[0]);
      assert LowerAll(u) == [Lower(u[0])];
    }
  }

  /** `2g` is two bytes as written, two gibibytes as intended. */
  lemma GibibyteNotScaled()
    ensures ParseChunksize(ChunkSize.StrArg("2g")) == Ok(2)
    ensures ParseChunksizeIntended(ChunkSize.StrArg("2g")) == Ok(2 * 1073741824)
  {
    assert DecimalValue("2") == 2;
    MatchOfDigitsAndLetter("2", "g");
  }

  /** Plain digits are refused as written and a byte count as intended. */
  lemma PlainDigitsRejected()
    ensures ParseChunksize(ChunkSize.StrArg("512")) == Err(UnknownSuffix)
    ensures ParseChunksizeIntended(ChunkSize.StrArg("512")) == Ok(512)
  {
    assert DecimalValue("512") == 512 by {
      assert "512"[..2] == "51" && "51"[..1] == "5";
    }
    MatchOfDigitsAndLetter("512", "");
    assert "512" + "" == "512";
  }

  // ---------------------------------------------------------------------------
  // The receive loop

  /** The receive buffer for chunk `i` of `n`: a whole chunk except the last,
      which is `size % chunkSize` bytes, zero when the size is a multiple. */
  function LegacyBufferLength(i: nat, n: nat, size: nat, chunkSize: nat): nat
    requires chunkSize > 0 && i < n
  {
    if i < n - 1 then chunkSize else size % chunkSize
  }

  /** The broadcast buffers match the legacy receive buffers, chunk for chunk. */
  ghost predicate FitsLegacyPlan(bufs: seq<seq<byte>>, size: nat, chunkSize: nat)
    requires NumChunks(size, chunkSize).Ok?
  {
    var n := NumChunks(size, chunkSize).value;
    n <= |bufs| && forall i | 0 <= i < n :: |bufs[i]| == LegacyBufferLength(i, n, size, chunkSize)
  }

  /** The legacy buffers are the planned chunk lengths except the last, which
      differs exactly when the size is a multiple of the chunk size. */
  lemma LegacyLengthsAgainstPlan(size: nat, chunkSize: nat, i: nat)
    requires chunkSize > 0 && i < NumChunks(size, chunkSize).value
    ensures var n := NumChunks(size, chunkSize).value;
      LegacyBufferLength(i, n, size, chunkSize) == ChunkLength(i, n, size, chunkSize)
      <==> i < n - 1 || size % chunkSize != 0
  {
  }

  /** `recv_file` of the earlier script: the same loop as the current one with
      the legacy length for the last buffer. */
  method LegacyRecvFile(size: nat, chunkSize: nat, incoming: seq<seq<byte>>) returns (r: Result<seq<byte>>)
    ensures r.Ok? <==> NumChunks(size, chunkSize).Ok? && FitsLegacyPlan(incoming, size, chunkSize)
    ensures r.Err? ==> r.failure == ZeroChunkSize || r.failure == CollectiveMismatch
    ensures r.Ok? ==> r.value == Concat(incoming[..NumChunks(size, chunkSize).value])
  {
    var plan := NumChunks(size, chunkSize);
    if plan.Err? {
      return Err(plan.failure);
    }
    var n := plan.value;
    var written: seq<byte> := [];
    for i := 0 to n
      invariant i <= |incoming|
      invariant forall j | 0 <= j < i :: |incoming[j]| == LegacyBufferLength(j, n, size, chunkSize)
      invariant written == Concat(incoming[..i])
    {
      var len := LegacyBufferLength(i, n, size, chunkSize);
      if i >= |incoming| || |incoming[i]| != len {
        return Err(CollectiveMismatch);
      }
      assert incoming[..i + 1][..i] == incoming[..i];
      written := written + incoming[i];
    }
    r := Ok(written);
  }

  /** The earlier script's transfer to one receiver: the copy is complete
      when it succeeds, and it fails whenever a non-empty file is a whole
      number of chunks. */
  method LegacyTransfer(file: seq<byte>, chunkSize: nat) returns (r: Result<seq<byte>>)
    ensures r.Ok? <==> |file| == 0 || (chunkSize > 0 && |file| % chunkSize != 0)
    ensures r.Ok? ==> r.value == file
  {
    var sent, _ := SendFile(file, chunkSize);
    if sent.Err? {
      return Err(sent.failure);
    }
    var size := |file|;
    r := LegacyRecvFile(size, chunkSize, sent.value);
    var n := NumChunks(size, chunkSize).value;
    if size > 0 {
      var lens := ChunkLengths(size, chunkSize);
      assert |sent.value[n - 1]| == lens[n - 1];
      LegacyLengthsAgainstPlan(size, chunkSize, n - 1);
      forall i | 0 <= i < n - 1
        ensures |sent.value[i]| == LegacyBufferLength(i, n, size, chunkSize)
      {
        assert |sent.value[i]| == lens[i];
      }
    }
    SplitConcat(file, chunkSize);
    assert sent.value[..n] == sent.value;
  }

  /** A 240-byte file in 120-byte chunks: the last receive buffer is empty
      where the broadcast carries 120 bytes. */
  lemma LastBufferEmpty()
    ensures NumChunks(240, 120) == Ok(2)
    ensures LegacyBufferLength(1, 2, 240, 120) == 0
    ensures ChunkLength(1, 2, 240, 120) == 120
  {
  }
}

=== FILE: text.dfy ===
/**
 The pieces of Python's `re` and `int` behaviour that the size and root
 options rely on: runs of ASCII decimal digits, their value, ASCII
 lower-casing, and the `$` anchor.
 */
module Text {

  predicate IsDigit(c: char) {
    '0' <= c <= '9'
  }

  predicate AllDigits(s: string) {
    forall i | 0 <= i < |s| :: IsDigit(s[i])
  }

  /** One of the unit letters `k`, `m`, `g`, in either case. */
  predicate IsUnitLetter(c: char) {
    c in "kmgKMG"
  }

  function DigitValue(c: char): (d: nat)
    requires IsDigit(c)
    ensures d < 10
  {
    c as int - '0' as int
  }

  /** The value `int(s)` gives a run of digits, leading zeros allowed. */
  function DecimalValue(s: string): nat
    requires AllDigits(s)
  {
    if s == [] then 0 else 10 * DecimalValue(s[..|s| - 1]) + DigitValue(s[|s| - 1])
  }

  /** Length of the longest run of digits at the front of `s`. */
  function LeadingDigits(s: string): (k: nat)
    ensures k <= |s|
    ensures AllDigits(s[..k])
    ensures k < |s| ==> !IsDigit(s[k])
  {
    if s == [] || !IsDigit(s[0]) then 0 else 1 + LeadingDigits(s[1..])
  }

  /** A run of digits followed by anything that does not start with a digit
      is exactly what LeadingDigits measures. */
  lemma {:induction false} LeadingDigitsOfConcat(d: string, u: string)
    requires AllDigits(d)
    requires u == [] || !IsDigit(u[0])
    ensures LeadingDigits(d + u) == |d|
  {
    if d != [] {
      assert (d + u)[1..] == d[1..] + u;
      LeadingDigitsOfConcat(d[1..], u);
    } else {
      assert d + u == u;
    }
  }

  /** ASCII lower-casing, as `str.lower()` does for the letters of the grammar. */
  function Lower(c: char): (l: char)
    ensures 'A' <= c <= 'Z' ==> l as int == c as int + 32
    ensures !('A' <= c <= 'Z') ==> l == c
  {
    if 'A' <= c <= 'Z' then (c as int + 32) as char else c
  }

  function LowerAll(s: string): (l: string)
    ensures |l| == |s|
    ensures forall i | 0 <= i < |s| :: l[i] == Lower(s[i])
  {
    if s == [] then [] else [Lower(s[0])] + LowerAll(s[1..])
  }

  /**
   The text that the body of a pattern `^...$` must cover in `re.match`:
   `$` matches at the very end of the string and also just before a final
   newline. Every pattern used here ends in a digit or a letter, so when the
   string ends in a newline only the text before it can match.
   */
  function AnchoredBody(s: string): (t: string)
    ensures t == s || t + "\n" == s
    ensures t == s <==> s == [] || s[|s| - 1] != '\n'
  {
    if |s| > 0 && s[|s| - 1] == '\n' then s[..|s| - 1] else s
  }
}

=== FILE: transfer.dfy ===
/**
 The chunked transfer (`send_file` and `recv_file`, mpicpy/mpicpy.py). The
 root reads its file chunk by chunk and broadcasts each buffer; every other
 rank allocates a buffer of the planned length for the same chunk, receives
 the broadcast into it and appends it to a freshly truncated destination.
 A file is a sequence of bytes; a broadcast is the root's buffer handed to the
 receivers, which is well defined only when both sides use the same length.
 */
module Transfer {
  import opened Common
  import opened ChunkPlan

  /** The file cut into the chunks of the plan: successive slices of
      `chunkSize` bytes, the last one shorter when bytes run out. */
  function Split(file: seq<byte>, chunkSize: nat): seq<seq<byte>>
    requires NumChunks(|file|, chunkSize).Ok?
    decreases |file|
  {
    if file == [] then []
    else if |file| <= chunkSize then [file]
    else [file[..chunkSize]] + Split(file[chunkSize..], chunkSize)
  }

  /** The bytes of the buffers, one after another. */
  function Concat(bufs: seq<seq<byte>>): seq<byte> {
    if bufs == [] then [] else Concat(bufs[..|bufs| - 1]) + bufs[|bufs| - 1]
  }

  /** `f.read(n)` with the file cursor at `pos`: up to `n` bytes, fewer at the
      end of the file. */
  function Read(file: seq<byte>, pos: nat, n: nat): (buf: seq<byte>)
    requires pos <= |file|
    ensures |buf| <= n && pos + |buf| <= |file|
    ensures buf == file[pos..pos + |buf|]
    ensures |buf| < n ==> pos + |buf| == |file|
  {
    if pos + n <= |file| then file[pos..pos + n] else file[pos..]
  }

  /** The buffers a receiver is handed hold, chunk for chunk, the planned
      number of bytes. */
  ghost predicate FitsPlan(bufs: seq<seq<byte>>, lens: seq<nat>) {
    |lens| <= |bufs| && forall i | 0 <= i < |lens| :: |bufs[i]| == lens[i]
  }

  // ---------------------------------------------------------------------------
  // The chunks of a file

  lemma {:induction false} ConcatPrepend(b: seq<byte>, bufs: seq<seq<byte>>)
    ensures Concat([b] + bufs) == b + Concat(bufs)
  {
    if bufs != [] {
      var last := |bufs| - 1;
      assert ([b] + bufs)[..last + 1] == [b] + bufs[..last];
      ConcatPrepend(b, bufs[..last]);
    }
  }

  /** Putting the chunks back together gives the file. */
  lemma {:induction false} SplitConcat(file: seq<byte>, chunkSize: nat)
    requires NumChunks(|file|, chunkSize).Ok?
    ensures Concat(Split(file, chunkSize)) == file
  {
    if file != [] && |file| > chunkSize {
      SplitConcat(file[chunkSize..], chunkSize);
      ConcatPrepend(file[..chunkSize], Split(file[chunkSize..], chunkSize));
      assert file == file[..chunkSize] + file[chunkSize..];
    } else if file != [] {
      assert Concat([file]) == Concat([]) + file;
    }
  }

  /** The chunks of a file are as many as the plan counts and each is as
      long as the plan says. */
  lemma {:induction false} SplitMatchesPlan(file: seq<byte>, chunkSize: nat)
    requires NumChunks(|file|, chunkSize).Ok?
    ensures FitsPlan(Split(file, chunkSize), ChunkLengths(|file|, chunkSize))
    ensures |Split(file, chunkSize)| == NumChunks(|file|, chunkSize).value
  {
    var size := |file|;
    if file == [] {
    } else if size <= chunkSize {
      PlanOfOneChunk(size, chunkSize);
    } else {
      var rest := file[chunkSize..];
      SplitMatchesPlan(rest, chunkSize);
      PlanAfterFirstChunk(size, chunkSize);
      var n := NumChunks(size, chunkSize).value;
      var chunks := Split(file, chunkSize);
      var lens := ChunkLengths(size, chunkSize);
      forall i | 0 <= i < n
        ensures |chunks[i]| == lens[i]
      {
        if i > 0 {
          assert chunks[i] == Split(rest, chunkSize)[i - 1];
          assert ChunkLengths(|rest|, chunkSize)[i - 1] == ChunkLength(i - 1, n - 1, |rest|, chunkSize);
        }
      }
    }
  }

  /** Reading a chunk at the cursor yields the next chunk of the plan, and
      what is left is cut the same way. */
  lemma NextChunk(file: seq<byte>, pos: nat, chunkSize: nat)
    requires NumChunks(|file|, chunkSize).Ok?
    requires pos < |file|
    ensures Split(file[pos..], chunkSize)
         == [Read(file, pos, chunkSize)] + Split(file[pos + |Read(file, pos, chunkSize)|..], chunkSize)
  {
    var tail := file[pos..];
    if |tail| > chunkSize {
      assert tail[..chunkSize] == file[pos..pos + chunkSize];
      assert tail[chunkSize..] == file[pos + chunkSize..];
    } else {
      assert Read(file, pos, chunkSize) == tail;
      assert file[|file|..] == [];
    }
  }

  /** One turn of the send loop: with chunks still to send, the buffer read
      at the cursor is the next chunk of the plan and has the planned
      length. */
  lemma SendStep(file: seq<byte>, chunkSize: nat, pos: nat, sent: seq<seq<byte>>)
    requires NumChunks(|file|, chunkSize).Ok? && pos <= |file|
    requires sent + Split(file[pos..], chunkSize) == Split(file, chunkSize)
    requires |sent| < NumChunks(|file|, chunkSize).value
    ensures pos < |file|
    ensures var buf := Read(file, pos, chunkSize);
      var n := NumChunks(|file|, chunkSize).value;
      && (sent + [buf]) + Split(file[pos + |buf|..], chunkSize) == Split(file, chunkSize)
      && |buf| == ChunkLength(|sent|, n, |file|, chunkSize)
  {
    SplitMatchesPlan(file, chunkSize);
    var n := NumChunks(|file|, chunkSize).value;
    assert |Split(file[pos..], chunkSize)| > 0;
    var buf := Read(file, pos, chunkSize);
    NextChunk(file, pos, chunkSize);
    assert Split(file, chunkSize)[|sent|] == buf;
    assert ChunkLengths(|file|, chunkSize)[|sent|] == ChunkLength(|sent|, n, |file|, chunkSize);
  }

  /** Once as many chunks as planned are sent, the cursor is at the end of
      the file and what was sent is every chunk of it. */
  lemma SendDone(file: seq<byte>, chunkSize: nat, pos: nat, sent: seq<seq<byte>>)
    requires NumChunks(|file|, chunkSize).Ok? && pos <= |file|
    requires sent + Split(file[pos..], chunkSize) == Split(file, chunkSize)
    requires |sent| == NumChunks(|file|, chunkSize).value
    ensures pos == |file| && sent == Split(file, chunkSize)
    ensures FitsPlan(sent, ChunkLengths(|file|, chunkSize)) && |sent| == |ChunkLengths(|file|, chunkSize)|
  {
    SplitMatchesPlan(file, chunkSize);
    if pos < |file| {
      NextChunk(file, pos, chunkSize);
    }
    assert file[pos..] == [];
  }

  // ---------------------------------------------------------------------------
  // The two loops

  /**
   `send_file` on the root: announce the size, then for each planned chunk
   read the next bytes at the cursor and broadcast them. Returns the buffers
   broadcast, in order, and the byte count the progress bar was advanced by.
   */
  method SendFile(file: seq<byte>, chunkSize: nat) returns (r: Result<seq<seq<byte>>>, progress: nat)
    ensures r.Err? <==> |file| > 0 && chunkSize == 0
    ensures r.Err? ==> r.failure == ZeroChunkSize
    ensures r.Ok? ==> r.value == Split(file, chunkSize)
    ensures r.Ok? ==> FitsPlan(r.value, ChunkLengths(|file|, chunkSize)) && |r.value| == |ChunkLengths(|file|, chunkSize)|
    ensures r.Ok? ==> progress == |file|
  {
    var size := |file|;
    progress := 0;
    var plan := NumChunks(size, chunkSize);
    if plan.Err? {
      return Err(plan.failure), progress;
    }
    var n := plan.value;
    var pos: nat := 0;
    var sent: seq<seq<byte>> := [];
    for i := 0 to n
      invariant size == 0 || chunkSize > 0
      invariant pos <= size
      invariant |sent| == i
      invariant sent + Split(file[pos..], chunkSize) == Split(file, chunkSize)
      invariant progress == pos
    {
      var buf := Read(file, pos, chunkSize);
      SendStep(file, chunkSize, pos, sent);
      pos := pos + |buf|;
      sent := sent + [buf];
      progress := progress + ChunkLength(i, n, size, chunkSize);
    }
    SendDone(file, chunkSize, pos, sent);
    r := Ok(sent);
  }

  /**
   `recv_file` on every other rank: learn the size, truncate the destination,
   then for each planned chunk receive a buffer of the planned length and
   append it. Given the buffers the root broadcast, in order, returns the
   bytes written to the destination.
   */
  method RecvFile(size: nat, chunkSize: nat, incoming: seq<seq<byte>>) returns (r: Result<seq<byte>>)
    ensures r.Ok? <==> NumChunks(size, chunkSize).Ok? && FitsPlan(incoming, ChunkLengths(size, chunkSize))
    ensures r.Err? ==> r.failure == ZeroChunkSize || r.failure == CollectiveMismatch
    ensures r.Ok? ==> r.value == Concat(incoming[..NumChunks(size, chunkSize).value])
    ensures r.Ok? ==> |r.value| == size
  {
    var plan := NumChunks(size, chunkSize);
    if plan.Err? {
      return Err(plan.failure);
    }
    var n := plan.value;
    ghost var lens := ChunkLengths(size, chunkSize);
    var written: seq<byte> := [];
    for i := 0 to n
      invariant i <= |incoming|
      invariant forall j | 0 <= j < i :: |incoming[j]| == lens[j]
      invariant written == Concat(incoming[..i])
      invariant |written| == Sum(lens[..i])
    {
      var len := ChunkLength(i, n, size, chunkSize);
      if i >= |incoming| || |incoming[i]| != len {
        return Err(CollectiveMismatch);
      }
      var buf := incoming[i];
      assert incoming[..i + 1][..i] == incoming[..i];
      assert lens[..i + 1][..i] == lens[..i];
      written := written + buf;
    }
    assert lens[..n] == lens;
    ChunkLengthsSum(size, chunkSize);
    r := Ok(written);
  }

  /** One receiver's view of the whole transfer: whatever the file, the
      destination ends up a byte-for-byte copy of the root's file; the only
      failure is a zero chunk size for a non-empty file. */
  method CopyToReceiver(file: seq<byte>, chunkSize: nat) returns (r: Result<seq<byte>>)
    ensures r.Err? <==> |file| > 0 && chunkSize == 0
    ensures r.Ok? ==> r.value == file
  {
    var sent, _ := SendFile(file, chunkSize);
    if sent.Err? {
      return Err(sent.failure);
    }
    r := RecvFile(|file|, chunkSize, sent.value);
    SplitConcat(file, chunkSize);
    assert sent.value[..NumChunks(|file|, chunkSize).value] == sent.value;
  }
}
